=== FILE: README.md ===
# Multi-line code editor: completion source, buffer and options

This project models the core of the multi-line code editor component of the
front end (`MultiLineCodeEditor.jsx`). Its main part is the completion source
that the editor installs as CodeMirror's `override`:

- it reads the document, trims every line, joins the lines with a space and
  splits on the space character, and drops the empty pieces;
- the last piece that remains is the *current word*;
- for `lang === 'javascript'`, every method of every `jsHints` category,
  tagged `js_method`, is kept when its hint contains the text after the
  word's last `.`;
- every application hint is kept when its hint contains the whole word;
- the kept methods, followed by the kept application hints, go to
  `generateHints`;
- `apply` is deleted from every generated completion, and the answer is
  `{from: context.pos, options}`.

Around it the model covers:

- the `compareCompletions` comparator;
- the pending-value buffer (`currentValue`, `handleChange`, `handleOnBlur`
  and the `[lang]` effect);
- the `heightInPx` normalisation;
- the `??` defaults of `setupConfig`.

Files:

- `wrappers.dfy`: `Option` and `Result`.
- `js_strings.dfy`: the JavaScript string and array built-ins the component
  relies on, each with its laws.
  - `trim` is `Trim`, over the ECMAScript white-space and line-terminator
    characters.
  - `split` and `join` with a one-character separator are `Split` and
    `Join`, and they are inverse to each other.
  - `filter` is `Keep`, an order-preserving sub-list.
  - `includes` is `Includes`.
  - `<` on strings is `LexLess`, a strict total order.
- `autocomplete.dfy`: the completion source.
  - `AutoComplete` is the function that specifies it.
  - `AutoCompleteExtensionConfig` is the step-by-step method. It reassigns
    `JSLangHints` and deletes `apply` in place on an array.
  - The lemmas that follow state what the word is, what each filter keeps,
    when the source throws and what it answers.
- `editor.dfy`: the `MultiLineCodeEditor` class for the buffer, `HeightInPx`
  and `SetupConfig`.
- `scenarios.dfy`: worked documents.
  - `const x = foo.ba` keeps the array methods `bar` and `baz` and drops
    `map`.
  - `select * from use` keeps the hint `users` and drops `orders`.
  - A blank line throws.

Two points where the code does something other than one might expect are
modelled as the code does them:

- **Where the word comes from.** The word is the last token of the whole
  document, whatever the cursor position. The position only becomes `from`.
- **What counts as a separator.** Tokens are separated by the space
  character only. A tab inside a line is part of a word; only `trim` removes
  tabs, and only at the ends of a line.

A third point concerns a blank document:

- Its `length === 0` branch suggests a blank document was meant to give the
  empty word and every hint.
- The code instead filters out empty tokens, so `currentWord` is
  `undefined`, and the filter callbacks throw a `TypeError` as soon as they
  have a candidate to test.
- The model follows the code: `AutoComplete` answers `Failure(WordUndefined)`.
  See "## Findings".

`generateHints` is defined outside the component and is a parameter
`generate` of the model. The document is given as its lines, and the
trigger position as an integer.

## Model

| member | source | states |
|---|---|---|
| JsStrings.IsWs | frontend/src/Editor/CodeEditor/MultiLineCodeEditor.jsx:67 | the characters `trim` removes: ECMAScript white space and line terminators; see `TrimEmptyIffAllWs` |
| JsStrings.Join | frontend/src/Editor/CodeEditor/MultiLineCodeEditor.jsx:68 | `join` with a one-character separator: `""` for no pieces, otherwise the pieces with one separator between neighbours; see `JoinSplit`, `SplitJoin` |
| JsStrings.Keep | frontend/src/Editor/CodeEditor/MultiLineCodeEditor.jsx:70-75 | `filter`: the elements passing the callback, in their original order; see `KeepMembers`, `KeepCount`, `KeepIsSubsequence`, `KeepAll` |
| JsStrings.Includes | frontend/src/Editor/CodeEditor/MultiLineCodeEditor.jsx:95 | `includes`: the needle occurs as a contiguous run, the empty needle everywhere; see `IncludesEmpty`, `IncludesSuffix` |
| JsStrings.LexLess | frontend/src/Editor/CodeEditor/MultiLineCodeEditor.jsx:121 | string `<`: a proper prefix, or smaller at the first differing character; see `LexLessIrreflexive`, `LexLessTrichotomy`, `LexLessTransitive` |
| JsStrings.TrimStart | frontend/src/Editor/CodeEditor/MultiLineCodeEditor.jsx:67 | leading-whitespace removal yields a suffix of the line that is empty or starts with a non-whitespace character |
| JsStrings.TrimStartDropsWs | frontend/src/Editor/CodeEditor/MultiLineCodeEditor.jsx:67 | every character removed at the front is whitespace |
| JsStrings.TrimEnd | frontend/src/Editor/CodeEditor/MultiLineCodeEditor.jsx:67 | trailing-whitespace removal yields a prefix of the line that is empty or ends in a non-whitespace character |
| JsStrings.TrimEndDropsWs | frontend/src/Editor/CodeEditor/MultiLineCodeEditor.jsx:67 | every character removed at the back is whitespace |
| JsStrings.Trim | frontend/src/Editor/CodeEditor/MultiLineCodeEditor.jsx:67 | a trimmed line is empty or neither starts nor ends with whitespace |
| JsStrings.TrimEmptyIffAllWs | frontend/src/Editor/CodeEditor/MultiLineCodeEditor.jsx:67 | a line trims to the empty string exactly when every character is whitespace |
| JsStrings.TrimIdempotent | frontend/src/Editor/CodeEditor/MultiLineCodeEditor.jsx:67 | trimming twice is trimming once |
| JsStrings.Split | frontend/src/Editor/CodeEditor/MultiLineCodeEditor.jsx:69 | `split` with one separator character always yields at least one piece |
| JsStrings.SplitPiecesLackSeparator | frontend/src/Editor/CodeEditor/MultiLineCodeEditor.jsx:69 | no piece contains the separator |
| JsStrings.JoinSplit | frontend/src/Editor/CodeEditor/MultiLineCodeEditor.jsx:68-69 | joining the pieces of a split with the same separator restores the string |
| JsStrings.SplitJoin | frontend/src/Editor/CodeEditor/MultiLineCodeEditor.jsx:68-69 | splitting a join of separator-free pieces (at least one) restores the pieces |
| JsStrings.SplitConcat | frontend/src/Editor/CodeEditor/MultiLineCodeEditor.jsx:68-69 | the split of `a + sep + b` is the split of `a` followed by the split of `b` |
| JsStrings.SplitNoSeparator | frontend/src/Editor/CodeEditor/MultiLineCodeEditor.jsx:91 | a string without the separator splits into itself alone |
| JsStrings.SplitLastPiece | frontend/src/Editor/CodeEditor/MultiLineCodeEditor.jsx:91-93 | the last piece of a split is the longest separator-free suffix of the string |
| JsStrings.KeepMembers | frontend/src/Editor/CodeEditor/MultiLineCodeEditor.jsx:70-75 | `filter` keeps only elements of the input that pass the callback, and keeps every element that passes |
| JsStrings.KeepCount | frontend/src/Editor/CodeEditor/MultiLineCodeEditor.jsx:70-75 | `filter` keeps every copy of an element that passes the callback and no copy of one that fails |
| JsStrings.KeepCounts | frontend/src/Editor/CodeEditor/MultiLineCodeEditor.jsx:70-75 | the same count law for every element at once |
| JsStrings.KeepConcat | frontend/src/Editor/CodeEditor/MultiLineCodeEditor.jsx:70-75 | filtering a concatenation is concatenating the filtered parts |
| JsStrings.KeepAll | frontend/src/Editor/CodeEditor/MultiLineCodeEditor.jsx:101-105 | `filter` returns its input exactly when every element passes |
| JsStrings.KeepIsSubsequence | frontend/src/Editor/CodeEditor/MultiLineCodeEditor.jsx:90-96 | `filter` returns a sub-list of its input in the original order |
| JsStrings.IncludesEmpty | frontend/src/Editor/CodeEditor/MultiLineCodeEditor.jsx:95 | every string includes the empty string |
| JsStrings.IncludesSuffix | frontend/src/Editor/CodeEditor/MultiLineCodeEditor.jsx:51 | a string includes any string it ends with |
| JsStrings.LexLessIrreflexive | frontend/src/Editor/CodeEditor/MultiLineCodeEditor.jsx:121 | no label is `<` itself |
| JsStrings.LexLessTrichotomy | frontend/src/Editor/CodeEditor/MultiLineCodeEditor.jsx:121 | of two labels exactly one of equal, `a < b`, `b < a` holds |
| JsStrings.LexLessTransitive | frontend/src/Editor/CodeEditor/MultiLineCodeEditor.jsx:121 | string `<` is transitive |
| CompletionSource.Tokens | frontend/src/Editor/CodeEditor/MultiLineCodeEditor.jsx:66-75 | the document's lines trimmed, joined with a space, split on the space and stripped of `''` and `' '`; see `TokensSnoc`, `TokensShape` |
| CompletionSource.CurrentWord | frontend/src/Editor/CodeEditor/MultiLineCodeEditor.jsx:66-77 | the last token, `None` standing for `undefined` when there is none; see `CurrentWordIsLastLineWord`, `CurrentWordUndefinedIffBlank`, `CurrentWordFromLastNonBlankLine` |
| CompletionSource.AfterLastDot | frontend/src/Editor/CodeEditor/MultiLineCodeEditor.jsx:91-93 | the last element of the word split on `.`; see `AfterLastDotShape` |
| CompletionSource.FilterMethods | frontend/src/Editor/CodeEditor/MultiLineCodeEditor.jsx:90-96 | with a word, the candidates whose hint includes the text after its last `.`; with `undefined` and any candidate, the `TypeError` of `.split`; see `MethodFilterKeeps`, `FaultIff` |
| CompletionSource.JsLangHints | frontend/src/Editor/CodeEditor/MultiLineCodeEditor.jsx:79-97 | `JSLangHints`: `[]` unless `lang` is `'javascript'`, else the flattened methods through the method filter; see `JsMethodGate`, `MethodFilterKeeps` |
| CompletionSource.FilterApp | frontend/src/Editor/CodeEditor/MultiLineCodeEditor.jsx:99-105 | `autoSuggestionList`: with a word, the application hints passing the `length === 0` / `includes` callback; with `undefined` and any hint, the `TypeError` of `.length`; see `AppFilterKeeps`, `FaultIff` |
| CompletionSource.Candidates | frontend/src/Editor/CodeEditor/MultiLineCodeEditor.jsx:107 | `[...JSLangHints, ...autoSuggestionList]`, the first fault winning; see `AutoCompleteWithWord` |
| CompletionSource.WithoutApply | frontend/src/Editor/CodeEditor/MultiLineCodeEditor.jsx:108 | one completion with `apply` deleted; see `OptionsWithoutApply` |
| CompletionSource.StripApply | frontend/src/Editor/CodeEditor/MultiLineCodeEditor.jsx:107-110 | every generated completion with `apply` deleted, order kept; see `DeleteApply`, `OptionsWithoutApply` |
| CompletionSource.AutoComplete | frontend/src/Editor/CodeEditor/MultiLineCodeEditor.jsx:65-116 | `autoCompleteExtensionConfig` as a function of the document lines, position, `lang`, hints and `generateHints`; see `FaultIff`, `AutoCompleteWithWord`, `OptionsWithoutApply`, `AutoCompleteExtensionConfig` |
| CompletionSource.TrimAll | frontend/src/Editor/CodeEditor/MultiLineCodeEditor.jsx:66-67 | mapping `trim` over the document gives one entry per line, entry `i` being line `i` trimmed |
| CompletionSource.TokensSnoc | frontend/src/Editor/CodeEditor/MultiLineCodeEditor.jsx:66-75 | the tokens of a document are the tokens of its earlier lines followed by those of its last line; joining with a space never glues two lines' words |
| CompletionSource.BlankLineTokens | frontend/src/Editor/CodeEditor/MultiLineCodeEditor.jsx:66-75 | a line that trims to nothing contributes no token |
| CompletionSource.NonBlankLineTokens | frontend/src/Editor/CodeEditor/MultiLineCodeEditor.jsx:66-75 | any other line contributes tokens, the last being the last space-separated piece of the trimmed line |
| CompletionSource.TokensShape | frontend/src/Editor/CodeEditor/MultiLineCodeEditor.jsx:66-75 | every token is non-empty and contains no space |
| CompletionSource.CurrentWordShape | frontend/src/Editor/CodeEditor/MultiLineCodeEditor.jsx:66-77 | a defined current word is non-empty and contains no space |
| CompletionSource.CurrentWordSnoc | frontend/src/Editor/CodeEditor/MultiLineCodeEditor.jsx:66-77 | a new last line changes the word only when it does not trim to nothing, and then the word is that line's last piece |
| CompletionSource.CurrentWordIsLastLineWord | frontend/src/Editor/CodeEditor/MultiLineCodeEditor.jsx:66-77 | the join-split-filter pipeline picks the same word as the line-by-line reading `LastLineWord` |
| CompletionSource.LastLineWordUndefinedIffBlank | frontend/src/Editor/CodeEditor/MultiLineCodeEditor.jsx:66-77 | the line-by-line reading finds no word exactly when every line trims to nothing |
| CompletionSource.CurrentWordUndefinedIffBlank | frontend/src/Editor/CodeEditor/MultiLineCodeEditor.jsx:66-77 | `currentWord` is `undefined` exactly when every line trims to nothing |
| CompletionSource.LastLineWordFromLastNonBlankLine | frontend/src/Editor/CodeEditor/MultiLineCodeEditor.jsx:66-77 | the line-by-line reading takes the last piece of the last line that does not trim to nothing |
| CompletionSource.CurrentWordFromLastNonBlankLine | frontend/src/Editor/CodeEditor/MultiLineCodeEditor.jsx:66-77 | the word is the last space-separated piece of the last line that does not trim to nothing, wherever the cursor is |
| CompletionSource.CurrentWordIsSuffixOfLine | frontend/src/Editor/CodeEditor/MultiLineCodeEditor.jsx:66-77 | that word is the longest space-free suffix of that trimmed line |
| CompletionSource.FlattenMethods | frontend/src/Editor/CodeEditor/MultiLineCodeEditor.jsx:81-88 | one candidate per method over all categories, each of type `js_method` and without `apply` |
| CompletionSource.MethodCandidateAt | frontend/src/Editor/CodeEditor/MultiLineCodeEditor.jsx:81-88 | method `j` of category `i` appears, tagged `js_method`, after every method of the earlier categories: key order, then method order |
| CompletionSource.AfterLastDotShape | frontend/src/Editor/CodeEditor/MultiLineCodeEditor.jsx:91-93 | the text after the last `.` is the longest dot-free suffix of the word: the whole word without a `.`, empty when the word ends in `.` |
| CompletionSource.JsMethodGate | frontend/src/Editor/CodeEditor/MultiLineCodeEditor.jsx:79-97 | any language other than exactly `'javascript'` gives no method candidates, and a non-empty result needs `'javascript'` and some method |
| CompletionSource.MethodFilterKeeps | frontend/src/Editor/CodeEditor/MultiLineCodeEditor.jsx:90-96 | with a word, the method filter is `filter` over the flattened candidates with "hint contains the text after the word's last `.`": an order-preserving sub-list holding every copy of each passing candidate and nothing else |
| CompletionSource.EmptySuffixKeepsEveryMethod | frontend/src/Editor/CodeEditor/MultiLineCodeEditor.jsx:90-96 | a word ending in `.` (or empty) keeps every method candidate |
| CompletionSource.AppFilterKeeps | frontend/src/Editor/CodeEditor/MultiLineCodeEditor.jsx:99-105 | a non-empty word keeps, as an order-preserving sub-list, every copy of each application hint containing the whole word and nothing else |
| CompletionSource.EmptyWordKeepsEveryAppHint | frontend/src/Editor/CodeEditor/MultiLineCodeEditor.jsx:101-102 | the empty word would keep every application hint |
| CompletionSource.LengthZeroBranchUnreachable | frontend/src/Editor/CodeEditor/MultiLineCodeEditor.jsx:101-105 | a word the code extracts is never empty, so only the `includes` test decides |
| CompletionSource.FaultIff | frontend/src/Editor/CodeEditor/MultiLineCodeEditor.jsx:66-105 | the source throws exactly when every line trims to nothing and some filter has a candidate (an application hint, or a method under `'javascript'`) |
| CompletionSource.AutoCompleteWithWord | frontend/src/Editor/CodeEditor/MultiLineCodeEditor.jsx:65-116 | with a word, `generateHints` receives the kept methods followed by the kept application hints, nothing deduplicated; the answer is its output without `apply` at `context.pos` |
| CompletionSource.OptionsWithoutApply | frontend/src/Editor/CodeEditor/MultiLineCodeEditor.jsx:107-115 | the options are `generateHints`' output in the same order with the same label and type and no `apply`; `from` is `context.pos` |
| CompletionSource.AutoCompleteExtensionConfig | frontend/src/Editor/CodeEditor/MultiLineCodeEditor.jsx:65-116 | the step-by-step source, reassigning `JSLangHints` and deleting `apply` in place, answers what `AutoComplete` specifies |
| CompletionSource.DeleteApplyAll | frontend/src/Editor/CodeEditor/MultiLineCodeEditor.jsx:107-110 | the generated completions come back in the same order and number, each without `apply` and with label and type unchanged |
| CompletionSource.DeleteApply | frontend/src/Editor/CodeEditor/MultiLineCodeEditor.jsx:107-110 | deleting `apply` in place turns the array into the stripped copy of its old contents |
| CompletionSource.CompareCompletions | frontend/src/Editor/CodeEditor/MultiLineCodeEditor.jsx:120-122 | the comparator returns -1 or 1, never 0, and -1 exactly when `a.label < b.label` |
| CompletionSource.CompareEqualLabels | frontend/src/Editor/CodeEditor/MultiLineCodeEditor.jsx:120-122 | equal labels compare as 1 both ways, so the comparator is not antisymmetric |
| CompletionSource.CompareDistinctLabels | frontend/src/Editor/CodeEditor/MultiLineCodeEditor.jsx:120-122 | distinct labels compare in opposite directions |
| CompletionSource.CompareTransitive | frontend/src/Editor/CodeEditor/MultiLineCodeEditor.jsx:120-122 | "sorts before" is transitive |
| CompletionSource.BlankDocumentFaults | frontend/src/Editor/CodeEditor/MultiLineCodeEditor.jsx:77-105 | as written, a document of blank lines with an application hint throws |
| CompletionSource.AutoCompleteIntended | frontend/src/Editor/CodeEditor/MultiLineCodeEditor.jsx:77-105 | with the word defaulting to `""`, the source always answers, at `context.pos` |
| CompletionSource.IntendedBlankDocumentKeepsAll | frontend/src/Editor/CodeEditor/MultiLineCodeEditor.jsx:99-105 | the intended source answers a blank document with every method (under `'javascript'`) and every application hint |
| CompletionSource.IntendedAgreesWithWord | frontend/src/Editor/CodeEditor/MultiLineCodeEditor.jsx:65-116 | wherever the document has a word, the intended and the written source agree |
| CodeEditor.MultiLineCodeEditor.constructor | frontend/src/Editor/CodeEditor/MultiLineCodeEditor.jsx:37 | the buffer starts as `initialValue` and nothing is committed |
| CodeEditor.MultiLineCodeEditor.HandleChange | frontend/src/Editor/CodeEditor/MultiLineCodeEditor.jsx:39-41 | a keystroke sets the buffer to the new text and commits nothing |
| CodeEditor.MultiLineCodeEditor.HandleOnBlur | frontend/src/Editor/CodeEditor/MultiLineCodeEditor.jsx:43-45 | a blur calls `onChange` exactly once, with the buffer, leaving the editor synced |
| CodeEditor.MultiLineCodeEditor.Render | frontend/src/Editor/CodeEditor/MultiLineCodeEditor.jsx:47-49 | a render with a different `lang` resets the buffer to `initialValue`, dropping uncommitted edits; otherwise the buffer is kept; nothing is committed |
| CodeEditor.NatToString | frontend/src/Editor/CodeEditor/MultiLineCodeEditor.jsx:51 | a non-negative integer prints as a non-empty run of decimal digits without a leading zero (except `0`) |
| CodeEditor.NatToStringValue | frontend/src/Editor/CodeEditor/MultiLineCodeEditor.jsx:51 | the printed digits spell the number back |
| CodeEditor.HeightText | frontend/src/Editor/CodeEditor/MultiLineCodeEditor.jsx:51 | the template-literal text `${height}` of a string, an integer below 10^21 in magnitude, `undefined` or `null`; see `NatToString`, `NatToStringValue` |
| CodeEditor.HeightInPx | frontend/src/Editor/CodeEditor/MultiLineCodeEditor.jsx:51 | a string height containing `px` is kept; any other height becomes its text followed by `px`; the result always contains `px` |
| CodeEditor.HeightInPxIdempotent | frontend/src/Editor/CodeEditor/MultiLineCodeEditor.jsx:51 | normalising a normalised height changes nothing |
| CodeEditor.SetupConfig | frontend/src/Editor/CodeEditor/MultiLineCodeEditor.jsx:56-63 | line numbers and completion are on unless their prop is explicitly `false`; highlighting, bracket matching and folding are on, active-line highlighting off |
| Scenarios.OneLineWord | frontend/src/Editor/CodeEditor/MultiLineCodeEditor.jsx:66-77 | a one-line document without surrounding whitespace has the text after its last space as its word |
| Scenarios.FooBaSuffix | frontend/src/Editor/CodeEditor/MultiLineCodeEditor.jsx:91-93 | the text after the last `.` of `foo.ba` is `ba` |
| Scenarios.BaFilter | frontend/src/Editor/CodeEditor/MultiLineCodeEditor.jsx:90-96 | `bar` and `baz` contain `ba`, `map` does not |
| Scenarios.FooBaMethods | frontend/src/Editor/CodeEditor/MultiLineCodeEditor.jsx:79-97 | the word `foo.ba` under `'javascript'` yields the candidates `bar` and `baz` |
| Scenarios.MethodSuffixScenario | frontend/src/Editor/CodeEditor/MultiLineCodeEditor.jsx:66-97 | the line `const x = foo.ba` has word `foo.ba` and yields `bar` and `baz` |
| Scenarios.UseApps | frontend/src/Editor/CodeEditor/MultiLineCodeEditor.jsx:99-105 | the word `use` keeps the application hint `users` and drops `orders` |
| Scenarios.AppWordScenario | frontend/src/Editor/CodeEditor/MultiLineCodeEditor.jsx:66-105 | the SQL line `select * from use` has word `use` and yields `users` |
| Scenarios.BlankLineScenario | frontend/src/Editor/CodeEditor/MultiLineCodeEditor.jsx:77-105 | a blank line with two application hints throws as written, and the intended source answers both hints |

## Left out

- `frontend/src/App/App.jsx` is not part of this model. It holds routing,
  page composition, `localStorage`, DOM title and favicon updates, network
  calls, a polling timer and a version comparison, with no logic of this
  component.
- `generateHints` is defined in `./autocompleteExtensionConfig`, outside
  this component, and is the opaque parameter `generate`. In particular:
  - the model does not say how it builds `label`;
  - the model does not say whether it returns the candidate objects
    themselves. If it does, `delete hint['apply']` also removes `apply` from
    the shared `appHints` entries. The model works on values and does not
    capture that aliasing.
- The ranking CodeMirror performs with the comparator is left out, because
  it is CodeMirror's own code. Only the comparator and its order laws are
  modelled. The `aboveCursor` and `defaultKeymap` options are the
  constants `AboveCursor` and `DefaultKeymap`.
- Left out as CodeMirror and React rendering rather than logic of this
  component:
  - the language extensions (`langSupport`) and the themes;
  - the `<CodeMirror>` element and the props it only forwards
    (`placeholder`, `width`, `className`, `cyLabel`, `componentName`,
    `currentState`);
  - how CodeMirror stores the document. It is given as its lines: the model
    assumes `context.state.doc.text` holds every line of the document, which
    CodeMirror guarantees only for a document stored as a single leaf; a
    longer document stored as a tree has no `text` field, and lines 66-67
    would then throw.
- React scheduling is left out: `useCallback` memoisation and when effects
  run. Events are a sequential stream of method calls on
  `MultiLineCodeEditor`, and `onChange` calls are recorded in `commits`.
- Missing or non-array props are not modelled: a `suggestions` prop without
  `jsHints` or `appHints` makes the source throw at lines 81 or 101. The
  model always has both lists.
- `LexLess` compares Unicode code points, whereas JavaScript `<` compares
  UTF-16 code units. The two orders differ only between characters beyond
  the Basic Multilingual Plane and those from U+E000 to U+FFFF.
- A generated completion keeps only `label`, `type` and `apply` in the
  model. Any other field `generateHints` attaches is not modelled; the
  source keeps such fields, since it deletes only `apply`.
- `HeightText`: number heights are integers of magnitude below 10^21
  (`PlainInt`). Integers of magnitude 10^21 or more print in exponent form
  in JavaScript (`1e+21`) and are not represented.
- `HeightInPx`: non-integer number heights (`1.5`, `NaN`, `Infinity`) are
  not modelled, so neither is their text.
- `SetupConfig`: `hideSuggestion` feeds `autocompletion` directly. This is
  modelled as written, despite the prop's name.

## Findings

| source | as written | input that shows it | evidently intended | confidence | as-written member | corrected member |
|---|---|---|---|---|---|---|
| frontend/src/Editor/CodeEditor/MultiLineCodeEditor.jsx:77-105 | empty tokens are filtered out, so a document with no token leaves `currentWord` `undefined`; `currentWord.length` (line 102) and `currentWord.split` (line 91) then throw a `TypeError` as soon as there is a candidate to test | document `["  "]` with application hints `table1` and `table2` (`Scenarios.BlankLineScenario`) | the `length === 0` branch shows a blank document was meant to give the empty word, so every hint is offered | high, not executed | CompletionSource.BlankDocumentFaults | CompletionSource.IntendedBlankDocumentKeepsAll |

`AutoComplete` and `AutoCompleteExtensionConfig` model the code as written.
`AutoCompleteIntended` is the corrected definition. `IntendedAgreesWithWord`
shows it differs from the written code only on documents without a token.

=== FILE: autocomplete.dfy ===
/**
 * The completion source the multi-line code editor installs as CodeMirror's
 * `override`. It reads the whole document, takes its last space-separated
 * token as the "current word", filters the JavaScript method hints and the
 * application hints by that word, hands the survivors to `generateHints`,
 * removes the `apply` field of every generated completion and answers
 * `{from, options}`. `generateHints` lives outside this component and is a
 * parameter here.
 */
module CompletionSource {
  import opened Wrappers
  import opened JsStrings

  const JavaScript := "javascript"
  const JsMethodType := "js_method"

  /** A hint object `{hint, type}`; application hints may also carry `apply`. */
  datatype Candidate = Candidate(hint: string, kind: string, apply: Option<string>)

  /** One entry of `jsHints`: a category key and its `methods` list. */
  datatype JsHintCategory = JsHintCategory(key: string, methods: seq<string>)

  /** The `suggestions` prop: the `jsHints` categories in `Object.keys` order, and the `appHints` list. */
  datatype Hints = Hints(jsHints: seq<JsHintCategory>, appHints: seq<Candidate>)

  /** What CodeMirror passes in: the document as its lines, and the position completion was triggered at. */
  datatype CompletionContext = CompletionContext(lines: seq<string>, pos: int)

  /**
   * A completion object produced by `generateHints`: `labelText` is its `label`
   * field, `kind` its `type`. Any other field `generateHints` attaches is not
   * modelled; the source leaves such fields in place and deletes only `apply`.
   */
  datatype Completion = Completion(labelText: string, kind: string, apply: Option<string>)

  datatype CompletionResult = CompletionResult(from: int, options: seq<Completion>)

  /** The TypeError a filter callback throws when it reads `.split` or `.length` of an `undefined` word. */
  datatype Fault = WordUndefined

  // ------------------------------------------------------------------
  // The current word

  /** `lines.map((element) => element.trim())` */
  function TrimAll(lines: seq<string>): (r: seq<string>)
    ensures |r| == |lines|
    ensures forall i :: 0 <= i < |lines| ==> r[i] == Trim(lines[i])
  {
    if |lines| == 0 then []
    else
      var init := lines[..|lines| - 1];
      var r := TrimAll(init) + [Trim(lines[|lines| - 1])];
      assert forall i | 0 <= i < |lines| :: r[i] == Trim(lines[i]) by {
        forall i | 0 <= i < |lines|
          ensures r[i] == Trim(lines[i])
        {
          if i < |init| {
            assert init[i] == lines[i];
          }
        }
      }
      r
  }

  /** The callback of the token filter: it drops `''` and `' '`. */
  predicate IsToken(piece: string) {
    piece != "" && piece != " "
  }

  /** The non-empty pieces of the whole document: trimmed lines, joined by and then split on a single space. */
  function Tokens(lines: seq<string>): seq<string>
  {
    Keep(Split(Join(TrimAll(lines), ' '), ' '), IsToken)
  }

  /** The tokens one line contributes. */
  function LineTokens(line: string): seq<string>
  {
    Keep(Split(Trim(line), ' '), IsToken)
  }

  /** The last token of the whole document; `None` stands for JavaScript's `undefined` when there is no token. */
  function CurrentWord(lines: seq<string>): Option<string>
  {
    var tokens := Tokens(lines);
    if |tokens| == 0 then None else Some(tokens[|tokens| - 1])
  }

  /** The tokens of a document are the tokens of its lines, line after line. */
  lemma {:induction false} TokensSnoc(lines: seq<string>, line: string)
    ensures Tokens(lines + [line]) == Tokens(lines) + LineTokens(line)
  {
    var ts := TrimAll(lines);
    var t := Trim(line);
    var all := lines + [line];
    assert all[..|all| - 1] == lines;
    assert TrimAll(all) == ts + [t];
    if |lines| == 0 {
      assert Join([t], ' ') == t;
      assert Keep([""], IsToken) == [];
    } else {
      assert (ts + [t])[..|ts|] == ts;
      assert Join(ts + [t], ' ') == Join(ts, ' ') + [' '] + t;
      SplitConcat(Join(ts, ' '), t, ' ');
      KeepConcat(Split(Join(ts, ' '), ' '), Split(t, ' '), IsToken);
    }
  }

  /** A line that trims to nothing contributes no token. */
  lemma BlankLineTokens(line: string)
    requires Trim(line) == ""
    ensures LineTokens(line) == []
  {
    assert Split("", ' ') == [""];
    assert Keep([""], IsToken) == [];
  }

  /** A line that does not trim to nothing contributes tokens, the last being the last space-separated piece of the trimmed line. */
  lemma NonBlankLineTokens(line: string)
    requires Trim(line) != ""
    ensures LineTokens(line) != []
    ensures Last(LineTokens(line)) == Last(Split(Trim(line), ' '))
  {
    var t := Trim(line);
    var ps := Split(t, ' ');
    var t' := t[..|t| - 1];
    assert t' + [t[|t| - 1]] == t;
    SplitSnoc(t', t[|t| - 1], ' ');
    assert ps[..|ps| - 1] + [Last(ps)] == ps;
    assert Last(ps)[|Last(ps)| - 1] == t[|t| - 1];
    assert IsToken(Last(ps));
  }

  /** Every token is non-empty and holds no space. */
  lemma TokensShape(lines: seq<string>)
    ensures forall i :: 0 <= i < |Tokens(lines)| ==> Tokens(lines)[i] != "" && ' ' !in Tokens(lines)[i]
  {
    var pieces := Split(Join(TrimAll(lines), ' '), ' ');
    var tokens := Keep(pieces, IsToken);
    assert Tokens(lines) == tokens;
    KeepMembers(pieces, IsToken);
    SplitPiecesLackSeparator(Join(TrimAll(lines), ' '), ' ');
    forall i | 0 <= i < |tokens|
      ensures tokens[i] != "" && ' ' !in tokens[i]
    {
      assert tokens[i] in pieces;
    }
  }

  /** A current word, when there is one, is a non-empty run of characters other than the space. */
  lemma CurrentWordShape(lines: seq<string>)
    requires CurrentWord(lines).Some?
    ensures var w := CurrentWord(lines).value; |w| > 0 && ' ' !in w
  {
    TokensShape(lines);
  }

  /** Adding a line changes the current word only when the line does not trim to nothing. */
  lemma CurrentWordSnoc(lines: seq<string>, line: string)
    ensures CurrentWord(lines + [line]) ==
      if Trim(line) == "" then CurrentWord(lines) else Some(Last(Split(Trim(line), ' ')))
  {
    TokensSnoc(lines, line);
    if Trim(line) == "" {
      BlankLineTokens(line);
      assert Tokens(lines + [line]) == Tokens(lines);
    } else {
      NonBlankLineTokens(line);
    }
  }

  /**
   * A line-by-line reading of the same word: the last space-separated piece
   * of the last line that does not trim to nothing.
   */
  function LastLineWord(lines: seq<string>): Option<string>
  {
    if |lines| == 0 then None
    else
      var t := Trim(lines[|lines| - 1]);
      if t == "" then LastLineWord(lines[..|lines| - 1]) else Some(Last(Split(t, ' ')))
  }

  /** The code's join-split-filter pipeline and the line-by-line reading pick the same word. */
  lemma {:induction false} CurrentWordIsLastLineWord(lines: seq<string>)
    ensures CurrentWord(lines) == LastLineWord(lines)
  {
    if |lines| == 0 {
      assert Tokens(lines) == [] by {
        assert Keep([""], IsToken) == [];
      }
    } else {
      var init := lines[..|lines| - 1];
      var line := lines[|lines| - 1];
      assert init + [line] == lines;
      CurrentWordIsLastLineWord(init);
      CurrentWordSnoc(init, line);
    }
  }

  lemma {:induction false} LastLineWordUndefinedIffBlank(lines: seq<string>)
    ensures LastLineWord(lines).None? <==> forall i :: 0 <= i < |lines| ==> Trim(lines[i]) == ""
  {
    if |lines| > 0 {
      var init := lines[..|lines| - 1];
      LastLineWordUndefinedIffBlank(init);
      if Trim(lines[|lines| - 1]) == "" {
        assert LastLineWord(lines) == LastLineWord(init);
        forall i | 0 <= i < |lines| - 1
          ensures Trim(lines[i]) == "" <==> Trim(init[i]) == ""
        {
          assert init[i] == lines[i];
        }
      } else {
        assert LastLineWord(lines).Some?;
      }
    }
  }

  /** There is no current word exactly when every line trims to nothing. */
  lemma CurrentWordUndefinedIffBlank(lines: seq<string>)
    ensures CurrentWord(lines).None? <==> forall i :: 0 <= i < |lines| ==> Trim(lines[i]) == ""
  {
    CurrentWordIsLastLineWord(lines);
    LastLineWordUndefinedIffBlank(lines);
  }

  lemma {:induction false} LastLineWordFromLastNonBlankLine(lines: seq<string>, k: nat)
    requires k < |lines| && Trim(lines[k]) != ""
    requires forall j :: k < j < |lines| ==> Trim(lines[j]) == ""
    ensures LastLineWord(lines) == Some(Last(Split(Trim(lines[k]), ' ')))
  {
    if k < |lines| - 1 {
      var init := lines[..|lines| - 1];
      assert LastLineWord(lines) == LastLineWord(init) by {
        assert Trim(lines[|lines| - 1]) == "";
      }
      forall j | k < j < |init|
        ensures Trim(init[j]) == ""
      {
        assert init[j] == lines[j];
      }
      assert init[k] == lines[k];
      LastLineWordFromLastNonBlankLine(init, k);
    }
  }

  /**
   * The current word comes from the last line that does not trim to nothing,
   * wherever the cursor is: it is the last space-separated piece of that trimmed line.
   */
  lemma CurrentWordFromLastNonBlankLine(lines: seq<string>, k: nat)
    requires k < |lines| && Trim(lines[k]) != ""
    requires forall j :: k < j < |lines| ==> Trim(lines[j]) == ""
    ensures CurrentWord(lines) == Some(Last(Split(Trim(lines[k]), ' ')))
  {
    CurrentWordIsLastLineWord(lines);
    LastLineWordFromLastNonBlankLine(lines, k);
  }

  /** That piece is the longest space-free suffix of the trimmed line. */
  lemma CurrentWordIsSuffixOfLine(lines: seq<string>, k: nat)
    requires k < |lines| && Trim(lines[k]) != ""
    requires forall j :: k < j < |lines| ==> Trim(lines[j]) == ""
    ensures CurrentWord(lines).Some? && IsLastPiece(CurrentWord(lines).value, Trim(lines[k]), ' ')
  {
    CurrentWordFromLastNonBlankLine(lines, k);
    var t := Trim(lines[k]);
    SplitLastPiece(t, ' ');
    assert CurrentWord(lines).value == Last(Split(t, ' '));
  }

  // ------------------------------------------------------------------
  // The JavaScript method hints

  /** One category's `methods.map((hint) => ({hint: hint, type: 'js_method'}))`. */
  function TagMethods(methods: seq<string>): seq<Candidate>
  {
    seq(|methods|, i requires 0 <= i < |methods| => Candidate(methods[i], JsMethodType, None))
  }

  /** The number of methods over all categories. */
  function MethodCount(cats: seq<JsHintCategory>): nat
  {
    if |cats| == 0 then 0 else MethodCount(cats[..|cats| - 1]) + |cats[|cats| - 1].methods|
  }

  /** `Object.keys(jsHints).map(...).flat()`: every method of every category, tagged `js_method`. */
  function FlattenMethods(cats: seq<JsHintCategory>): (r: seq<Candidate>)
    ensures |r| == MethodCount(cats)
    ensures forall i :: 0 <= i < |r| ==> r[i].kind == JsMethodType && r[i].apply == None
  {
    if |cats| == 0 then []
    else FlattenMethods(cats[..|cats| - 1]) + TagMethods(cats[|cats| - 1].methods)
  }

  /** Method `j` of category `i` sits after every method of the earlier categories: key order first, then method order. */
  lemma {:induction false} MethodCandidateAt(cats: seq<JsHintCategory>, i: nat, j: nat)
    requires i < |cats| && j < |cats[i].methods|
    ensures MethodCount(cats[..i]) + j < |FlattenMethods(cats)|
    ensures FlattenMethods(cats)[MethodCount(cats[..i]) + j] == Candidate(cats[i].methods[j], JsMethodType, None)
  {
    var init := cats[..|cats| - 1];
    if i == |cats| - 1 {
      assert cats[..i] == init;
    } else {
      assert init[..i] == cats[..i];
      MethodCandidateAt(init, i, j);
    }
  }

  /** The text after the word's last `.`: `currentWord.split('.')` then its last element. */
  function AfterLastDot(word: string): string
  {
    Last(Split(word, '.'))
  }

  /** The suffix is the longest dot-free suffix of the word. */
  lemma AfterLastDotShape(word: string)
    ensures IsLastPiece(AfterLastDot(word), word, '.')
    ensures '.' !in word ==> AfterLastDot(word) == word
    ensures |word| > 0 && word[|word| - 1] == '.' ==> AfterLastDot(word) == ""
  {
    SplitLastPiece(word, '.');
    if '.' !in word {
      SplitNoSeparator(word, '.');
    }
  }

  /** The filter callback: does the hint contain `needle`? */
  function HintIncludes(needle: string): Candidate -> bool
  {
    (c: Candidate) => Includes(c.hint, needle)
  }

  /** The application-hint callback: everything passes an empty word, else the hint must contain the word. */
  function AppHintMatches(word: string): Candidate -> bool
  {
    (c: Candidate) => |word| == 0 || Includes(c.hint, word)
  }

  /** The method filter; its callback reads `currentWord.split`, which throws on `undefined` once there is a candidate. */
  function FilterMethods(word: Option<string>, cs: seq<Candidate>): Result<seq<Candidate>, Fault>
  {
    match word
    case None => if |cs| == 0 then Success([]) else Failure(WordUndefined)
    case Some(w) => Success(Keep(cs, HintIncludes(AfterLastDot(w))))
  }

  /** `JSLangHints`: empty unless `lang` is exactly `'javascript'`, otherwise every method filtered by the word's suffix. */
  function JsLangHints(word: Option<string>, lang: string, cats: seq<JsHintCategory>): Result<seq<Candidate>, Fault>
  {
    if lang == JavaScript then FilterMethods(word, FlattenMethods(cats)) else Success([])
  }

  /** `autoSuggestionList`; its callback reads `currentWord.length`, which throws on `undefined` once there is a candidate. */
  function FilterApp(word: Option<string>, hs: seq<Candidate>): Result<seq<Candidate>, Fault>
  {
    match word
    case None => if |hs| == 0 then Success([]) else Failure(WordUndefined)
    case Some(w) => Success(Keep(hs, AppHintMatches(w)))
  }

  /** `[...JSLangHints, ...autoSuggestionList]`, the list handed to `generateHints`. */
  function Candidates(word: Option<string>, lang: string, hints: Hints): Result<seq<Candidate>, Fault>
  {
    var methods := JsLangHints(word, lang, hints.jsHints);
    var app := FilterApp(word, hints.appHints);
    if methods.Failure? then Failure(methods.error)
    else if app.Failure? then Failure(app.error)
    else Success(methods.value + app.value)
  }

  /** `delete hint['apply']` on one completion. */
  function WithoutApply(c: Completion): Completion
  {
    c.(apply := None)
  }

  function StripApply(cs: seq<Completion>): seq<Completion>
  {
    seq(|cs|, i requires 0 <= i < |cs| => WithoutApply(cs[i]))
  }

  /** The completion source for a given word; `generate` stands for `generateHints`. */
  function AutoCompleteFor(word: Option<string>, ctx: CompletionContext, lang: string, hints: Hints,
                           generate: seq<Candidate> -> seq<Completion>): Result<CompletionResult, Fault>
  {
    match Candidates(word, lang, hints)
    case Failure(e) => Failure(e)
    case Success(cs) => Success(CompletionResult(ctx.pos, StripApply(generate(cs))))
  }

  /** `autoCompleteExtensionConfig(context)` as written: the word is the last token of the whole document. */
  function AutoComplete(ctx: CompletionContext, lang: string, hints: Hints,
                        generate: seq<Candidate> -> seq<Completion>): Result<CompletionResult, Fault>
  {
    AutoCompleteFor(CurrentWord(ctx.lines), ctx, lang, hints, generate)
  }

  /** `autoCompleteExtensionConfig` step by step: `JSLangHints` is reassigned, and `apply` is deleted from each generated completion in place. */
  method AutoCompleteExtensionConfig(ctx: CompletionContext, lang: string, hints: Hints,
                                     generate: seq<Candidate> -> seq<Completion>)
    returns (r: Result<CompletionResult, Fault>)
    ensures r == AutoComplete(ctx, lang, hints, generate)
  {
    var currentWord := CurrentWord(ctx.lines);
    var jsLangHints: seq<Candidate> := [];
    if lang == JavaScript {
      jsLangHints := FlattenMethods(hints.jsHints);
      var filtered := FilterMethods(currentWord, jsLangHints);
      if filtered.Failure? {
        return Failure(filtered.error);
      }
      jsLangHints := filtered.value;
    }
    var autoSuggestionList := FilterApp(currentWord, hints.appHints);
    if autoSuggestionList.Failure? {
      return Failure(autoSuggestionList.error);
    }
    var generated := generate(jsLangHints + autoSuggestionList.value);
    var suggestions := DeleteApplyAll(generated);
    r := Success(CompletionResult(ctx.pos, suggestions));
  }

  /** The generated completions, copied into an array and stripped of `apply` there. */
  method DeleteApplyAll(generated: seq<Completion>) returns (suggestions: seq<Completion>)
    ensures suggestions == StripApply(generated)
    ensures |suggestions| == |generated|
    ensures forall i :: 0 <= i < |generated| ==>
      && suggestions[i].apply == None
      && suggestions[i].labelText == generated[i].labelText
      && suggestions[i].kind == generated[i].kind
  {
    var a := new Completion[|generated|](i requires 0 <= i < |generated| => generated[i]);
    assert a[..] == generated;
    DeleteApply(a);
    suggestions := a[..];
  }

  /** `.map((hint) => { delete hint['apply']; return hint; })`: each generated completion loses `apply` in place. */
  method DeleteApply(suggestions: array<Completion>)
    modifies suggestions
    ensures suggestions[..] == StripApply(old(suggestions[..]))
  {
    var i := 0;
    while i < suggestions.Length
      invariant 0 <= i <= suggestions.Length
      invariant forall k :: 0 <= k < i ==> suggestions[k] == WithoutApply(old(suggestions[k]))
      invariant forall k :: i <= k < suggestions.Length ==> suggestions[k] == old(suggestions[k])
    {
      suggestions[i] := WithoutApply(suggestions[i]);
      i := i + 1;
    }
  }

  // ------------------------------------------------------------------
  // What the filters keep

  /** Filtering with two callbacks that agree on every element gives the same list. */
  lemma {:induction false} KeepAgrees(s: seq<Candidate>, p: Candidate -> bool, q: Candidate -> bool)
    requires forall i :: 0 <= i < |s| ==> p(s[i]) == q(s[i])
    ensures Keep(s, p) == Keep(s, q)
  {
    if |s| > 0 {
      KeepAgrees(s[..|s| - 1], p, q);
    }
  }

  /** Method hints exist only for the language `'javascript'`, and only when some category lists a method. */
  lemma JsMethodGate(word: Option<string>, lang: string, cats: seq<JsHintCategory>)
    ensures lang != JavaScript ==> JsLangHints(word, lang, cats) == Success([])
    ensures JsLangHints(word, lang, cats).Success? && JsLangHints(word, lang, cats).value != [] ==>
      lang == JavaScript && MethodCount(cats) > 0
  {
  }

  /**
   * With a word, the method filter keeps, in their original order, exactly the
   * method candidates whose hint contains the text after the word's last `.`.
   */
  lemma MethodFilterKeeps(w: string, cats: seq<JsHintCategory>)
    ensures JsLangHints(Some(w), JavaScript, cats) == Success(Keep(FlattenMethods(cats), HintIncludes(AfterLastDot(w))))
    ensures var r, all, suffix := JsLangHints(Some(w), JavaScript, cats).value, FlattenMethods(cats), AfterLastDot(w);
      && IsSubsequence(r, all)
      && (forall i :: 0 <= i < |r| ==> Includes(r[i].hint, suffix))
      && (forall i :: 0 <= i < |all| && Includes(all[i].hint, suffix) ==> all[i] in r)
      && (forall c :: multiset(r)[c] == if Includes(c.hint, suffix) then multiset(all)[c] else 0)
  {
    var all, suffix := FlattenMethods(cats), AfterLastDot(w);
    var r := Keep(all, HintIncludes(suffix));
    assert JsLangHints(Some(w), JavaScript, cats) == Success(r);
    KeepIsSubsequence(all, HintIncludes(suffix));
    assert forall i :: 0 <= i < |r| ==> Includes(r[i].hint, suffix) by {
      KeepMembers(all, HintIncludes(suffix));
    }
    assert forall i :: 0 <= i < |all| && Includes(all[i].hint, suffix) ==> all[i] in r by {
      KeepMembers(all, HintIncludes(suffix));
    }
    assert forall c :: multiset(r)[c] == if Includes(c.hint, suffix) then multiset(all)[c] else 0 by {
      KeepCounts(all, HintIncludes(suffix));
    }
  }

  /** A word that is empty or ends in `.` leaves an empty suffix, which every hint contains, so every method candidate passes. */
  lemma EmptySuffixKeepsEveryMethod(w: string, cats: seq<JsHintCategory>)
    requires |w| == 0 || w[|w| - 1] == '.'
    ensures JsLangHints(Some(w), JavaScript, cats) == Success(FlattenMethods(cats))
  {
    AfterLastDotShape(w);
    var all := FlattenMethods(cats);
    forall i | 0 <= i < |all| ensures HintIncludes("")(all[i]) {
      IncludesEmpty(all[i].hint);
    }
    KeepAll(all, HintIncludes(""));
  }

  /** A non-empty word keeps, in their original order, exactly the application hints containing the whole word. */
  lemma AppFilterKeeps(w: string, hs: seq<Candidate>)
    requires |w| > 0
    ensures FilterApp(Some(w), hs) == Success(Keep(hs, HintIncludes(w)))
    ensures var r := FilterApp(Some(w), hs).value;
      && IsSubsequence(r, hs)
      && (forall i :: 0 <= i < |r| ==> Includes(r[i].hint, w))
      && (forall i :: 0 <= i < |hs| && Includes(hs[i].hint, w) ==> hs[i] in r)
      && (forall c :: multiset(r)[c] == if Includes(c.hint, w) then multiset(hs)[c] else 0)
  {
    KeepCounts(hs, HintIncludes(w));
    KeepAgrees(hs, AppHintMatches(w), HintIncludes(w));
    KeepIsSubsequence(hs, HintIncludes(w));
    KeepMembers(hs, HintIncludes(w));
  }

  /** The empty word would keep every application hint; this is the branch `currentWord.length === 0`. */
  lemma EmptyWordKeepsEveryAppHint(hs: seq<Candidate>)
    ensures FilterApp(Some(""), hs) == Success(hs)
  {
    KeepAll(hs, AppHintMatches(""));
  }

  /** The word the code extracts is never empty, so the `length === 0` branch of the application filter never decides anything. */
  lemma LengthZeroBranchUnreachable(lines: seq<string>, hs: seq<Candidate>)
    requires CurrentWord(lines).Some?
    ensures FilterApp(CurrentWord(lines), hs) == Success(Keep(hs, HintIncludes(CurrentWord(lines).value)))
  {
    CurrentWordShape(lines);
    AppFilterKeeps(CurrentWord(lines).value, hs);
  }

  // ------------------------------------------------------------------
  // What the completion source answers

  /**
   * The completion source throws exactly when every line trims to nothing
   * (so the word is `undefined`) and some filter has a candidate to test.
   */
  lemma FaultIff(ctx: CompletionContext, lang: string, hints: Hints, generate: seq<Candidate> -> seq<Completion>)
    ensures AutoComplete(ctx, lang, hints, generate).Failure? <==>
      && (forall i :: 0 <= i < |ctx.lines| ==> Trim(ctx.lines[i]) == "")
      && (|hints.appHints| > 0 || (lang == JavaScript && MethodCount(hints.jsHints) > 0))
  {
    CurrentWordUndefinedIffBlank(ctx.lines);
  }

  /**
   * With a word `w`, `generateHints` receives the methods whose hint contains the
   * text after the last `.` of `w` (only for `'javascript'`) followed by the
   * application hints containing `w`, nothing removed as a duplicate; the answer
   * is its output without `apply`, placed at the trigger position.
   */
  lemma AutoCompleteWithWord(ctx: CompletionContext, lang: string, hints: Hints,
                             generate: seq<Candidate> -> seq<Completion>, w: string)
    requires CurrentWord(ctx.lines) == Some(w)
    ensures var methods := if lang == JavaScript
                           then Keep(FlattenMethods(hints.jsHints), HintIncludes(AfterLastDot(w))) else [];
            var app := Keep(hints.appHints, HintIncludes(w));
      AutoComplete(ctx, lang, hints, generate) == Success(CompletionResult(ctx.pos, StripApply(generate(methods + app))))
  {
    LengthZeroBranchUnreachable(ctx.lines, hints.appHints);
  }

  /** Every option is the corresponding output of `generateHints`, same label and type, in the same order, without `apply`; `from` is the trigger position. */
  lemma OptionsWithoutApply(ctx: CompletionContext, lang: string, hints: Hints,
                            generate: seq<Candidate> -> seq<Completion>, cs: seq<Candidate>)
    requires Candidates(CurrentWord(ctx.lines), lang, hints) == Success(cs)
    ensures AutoComplete(ctx, lang, hints, generate).Success?
    ensures var res, gen := AutoComplete(ctx, lang, hints, generate).value, generate(cs);
      && res.from == ctx.pos
      && |res.options| == |gen|
      && forall i :: 0 <= i < |gen| ==>
           && res.options[i].apply == None
           && res.options[i].labelText == gen[i].labelText
           && res.options[i].kind == gen[i].kind
  {
  }

  // ------------------------------------------------------------------
  // The ranking comparator and the popup options

  /** The `compareCompletions` option: `a.label < b.label ? -1 : 1`. */
  function CompareCompletions(a: Completion, b: Completion): (r: int)
    ensures r == -1 || r == 1
    ensures r == -1 <==> LexLess(a.labelText, b.labelText)
  {
    if LexLess(a.labelText, b.labelText) then -1 else 1
  }

  /** The popup opens below the cursor. */
  const AboveCursor := false
  /** CodeMirror's default completion keymap stays on. */
  const DefaultKeymap := true

  /** Equal labels compare as 1 both ways: the comparator never reports a tie and is not antisymmetric. */
  lemma CompareEqualLabels(a: Completion, b: Completion)
    requires a.labelText == b.labelText
    ensures CompareCompletions(a, b) == 1 && CompareCompletions(b, a) == 1
  {
    LexLessIrreflexive(a.labelText);
  }

  /** Distinct labels compare in opposite directions. */
  lemma CompareDistinctLabels(a: Completion, b: Completion)
    requires a.labelText != b.labelText
    ensures CompareCompletions(a, b) == -CompareCompletions(b, a)
  {
    LexLessTrichotomy(a.labelText, b.labelText);
  }

  /** "Before" is transitive. */
  lemma CompareTransitive(a: Completion, b: Completion, c: Completion)
    requires CompareCompletions(a, b) == -1 && CompareCompletions(b, c) == -1
    ensures CompareCompletions(a, c) == -1
  {
    LexLessTransitive(a.labelText, b.labelText, c.labelText);
  }

  // ------------------------------------------------------------------
  // A blank document

  /** As written: a document of blank lines has no word, and any application hint makes the source throw. */
  lemma BlankDocumentFaults(ctx: CompletionContext, lang: string, hints: Hints, generate: seq<Candidate> -> seq<Completion>)
    requires forall i :: 0 <= i < |ctx.lines| ==> Trim(ctx.lines[i]) == ""
    requires |hints.appHints| > 0
    ensures AutoComplete(ctx, lang, hints, generate) == Failure(WordUndefined)
  {
    CurrentWordUndefinedIffBlank(ctx.lines);
  }

  /** The evidently intended source: with no token the word is `""`, which the `length === 0` branch is there to handle. */
  function AutoCompleteIntended(ctx: CompletionContext, lang: string, hints: Hints,
                                generate: seq<Candidate> -> seq<Completion>): (r: Result<CompletionResult, Fault>)
    ensures r.Success? && r.value.from == ctx.pos
  {
    AutoCompleteFor(Some(CurrentWord(ctx.lines).GetOr("")), ctx, lang, hints, generate)
  }

  /** The intended source answers a blank document with every method (for `'javascript'`) and every application hint, unfiltered. */
  lemma IntendedBlankDocumentKeepsAll(ctx: CompletionContext, lang: string, hints: Hints,
                                      generate: seq<Candidate> -> seq<Completion>)
    requires forall i :: 0 <= i < |ctx.lines| ==> Trim(ctx.lines[i]) == ""
    ensures var methods := if lang == JavaScript then FlattenMethods(hints.jsHints) else [];
      AutoCompleteIntended(ctx, lang, hints, generate)
        == Success(CompletionResult(ctx.pos, StripApply(generate(methods + hints.appHints))))
  {
    CurrentWordUndefinedIffBlank(ctx.lines);
    EmptyWordKeepsEveryAppHint(hints.appHints);
    if lang == JavaScript {
      EmptySuffixKeepsEveryMethod("", hints.jsHints);
    }
  }

  /** Wherever the document has a word, the intended source and the written one agree. */
  lemma IntendedAgreesWithWord(ctx: CompletionContext, lang: string, hints: Hints,
                               generate: seq<Candidate> -> seq<Completion>)
    requires CurrentWord(ctx.lines).Some?
    ensures AutoCompleteIntended(ctx, lang, hints, generate) == AutoComplete(ctx, lang, hints, generate)
  {
  }
}

=== FILE: editor.dfy ===
/**
 * The multi-line code editor widget around the completion source: its
 * pending-value buffer, the height it hands to CodeMirror and its
 * `basicSetup` options.
 */
module CodeEditor {
  import opened Wrappers
  import opened JsStrings

  /**
   * One mounted editor. React re-renders are a sequence of events on it:
   * a keystroke (`handleChange`), a focus loss (`handleOnBlur`) and a render
   * with new props (which runs the `[lang]` effect when `lang` changed).
   * `commits` records the argument of every `onChange` call, oldest first.
   */
  class MultiLineCodeEditor {
    var initialValue: string
    var lang: string
    var currentValue: string
    var commits: seq<string>

    /** No edit is pending: the buffer is what was last committed upward. */
    predicate Synced()
      reads this
    {
      |commits| > 0 && commits[|commits| - 1] == currentValue
    }

    /** Mounting: the buffer starts as `initialValue` and nothing has been committed. */
    constructor (initialValue: string, lang: string)
      ensures this.initialValue == initialValue && this.lang == lang
      ensures currentValue == initialValue && commits == []
    {
      this.initialValue := initialValue;
      this.lang := lang;
      currentValue := initialValue;
      commits := [];
    }

    /** A keystroke: the buffer takes the new text and nothing is committed. */
    method HandleChange(val: string)
      modifies this`currentValue
      ensures currentValue == val
    {
      currentValue := val;
    }

    /** Focus loss: `onChange` is called exactly once, with the buffer; afterwards the editor is synced. */
    method HandleOnBlur()
      modifies this`commits
      ensures commits == old(commits) + [currentValue]
      ensures Synced()
    {
      commits := commits + [currentValue];
    }

    /**
     * A render with new props. When `lang` differs from the previous render,
     * the effect resets the buffer to this render's `initialValue`, dropping
     * any uncommitted edit; a new `initialValue` alone leaves the buffer alone.
     */
    method Render(newInitialValue: string, newLang: string)
      modifies this
      ensures initialValue == newInitialValue && lang == newLang
      ensures currentValue == if newLang != old(lang) then newInitialValue else old(currentValue)
      ensures commits == old(commits)
    {
      if newLang != lang {
        currentValue := newInitialValue;
      }
      initialValue, lang := newInitialValue, newLang;
    }
  }

  /** The `height` prop: a string, a number, or absent (`undefined`) or `null`. */
  datatype Height = HeightString(text: string) | HeightNumber(n: PlainInt) | HeightUndefined | HeightNull

  /** The integers JavaScript prints in plain decimal: from 10^21 in magnitude on, `String(n)` switches to exponent form. */
  type PlainInt = n: int | -1_000_000_000_000_000_000_000 < n < 1_000_000_000_000_000_000_000

  /** The decimal digits of `n`, which is what `String(n)` gives below 10^21: no leading zero except for `0` itself. */
  function NatToString(n: nat): (r: string)
    ensures |r| > 0 && forall i :: 0 <= i < |r| ==> '0' <= r[i] <= '9'
    ensures r == "0" || r[0] != '0'
  {
    var digit := [(('0' as int) + n % 10) as char];
    if n < 10 then digit else NatToString(n / 10) + digit
  }

  /** The number a run of decimal digits spells, most significant digit first. */
  function DigitsValue(s: string): nat
    requires forall i :: 0 <= i < |s| ==> '0' <= s[i] <= '9'
  {
    if |s| == 0 then 0 else 10 * DigitsValue(s[..|s| - 1]) + (s[|s| - 1] as int - '0' as int)
  }

  /** The digits `NatToString` writes spell the number back. */
  lemma {:induction false} NatToStringValue(n: nat)
    ensures DigitsValue(NatToString(n)) == n
  {
    if n >= 10 {
      var r, init := NatToString(n), NatToString(n / 10);
      NatToStringValue(n / 10);
      assert r[..|r| - 1] == init;
    }
  }

  /** `${height}`: the template-literal form of the prop. */
  function HeightText(h: Height): string
  {
    match h
    case HeightString(s) => s
    case HeightNumber(n) => if n < 0 then "-" + NatToString(-n) else NatToString(n)
    case HeightUndefined => "undefined"
    case HeightNull => "null"
  }

  /**
   * `heightInPx`: a string already containing `px` is kept; anything else
   * becomes its text followed by `px`. Either way the result contains `px`.
   */
  function HeightInPx(h: Height): (r: string)
    ensures Includes(r, "px")
    ensures h.HeightString? && Includes(h.text, "px") ==> r == h.text
    ensures !(h.HeightString? && Includes(h.text, "px")) ==> r == HeightText(h) + "px"
  {
    if h.HeightString? && Includes(h.text, "px") then h.text
    else
      IncludesSuffix(HeightText(h), "px");
      HeightText(h) + "px"
  }

  /** Normalising an already normalised height changes nothing. */
  lemma HeightInPxIdempotent(h: Height)
    ensures HeightInPx(HeightString(HeightInPx(h))) == HeightInPx(h)
  {
  }

  /** The `basicSetup` object handed to CodeMirror. */
  datatype BasicSetup = BasicSetup(
    lineNumbers: bool,
    syntaxHighlighting: bool,
    bracketMatching: bool,
    foldGutter: bool,
    highlightActiveLine: bool,
    autocompletion: bool)

  /**
   * `setupConfig`: `lineNumbers ?? true` and `hideSuggestion ?? true`, where
   * `None` stands for a `null` or `undefined` prop, plus four fixed switches.
   * Completion is on unless `hideSuggestion` is explicitly `false`.
   */
  function SetupConfig(lineNumbers: Option<bool>, hideSuggestion: Option<bool>): (r: BasicSetup)
    ensures r.lineNumbers <==> lineNumbers != Some(false)
    ensures r.autocompletion <==> hideSuggestion != Some(false)
    ensures r.syntaxHighlighting && r.bracketMatching && r.foldGutter && !r.highlightActiveLine
  {
    BasicSetup(
      lineNumbers := lineNumbers.GetOr(true),
      syntaxHighlighting := true,
      bracketMatching := true,
      foldGutter := true,
      highlightActiveLine := false,
      autocompletion := hideSuggestion.GetOr(true))
  }
}

=== FILE: js_strings.dfy ===
/**
 * The JavaScript string and array primitives the editor relies on:
 * `trim`, `split` and `join` on a one-character separator, `includes`,
 * `Array.prototype.filter` and the relational operator `<` on strings.
 * Strings are sequences of characters; most functions here are defined
 * by recursion on the LAST element, which keeps the concatenation lemmas short.
 */
module JsStrings {

  /** The characters `String.prototype.trim` removes: ECMAScript WhiteSpace and LineTerminator. */
  predicate IsWs(c: char) {
    || c == '\t' || c == '\n' || c == '\U{B}' || c == '\U{C}' || c == '\r' || c == ' '
    || c == '\U{A0}' || c == '\U{1680}' || ('\U{2000}' <= c <= '\U{200A}')
    || c == '\U{2028}' || c == '\U{2029}' || c == '\U{202F}' || c == '\U{205F}'
    || c == '\U{3000}' || c == '\U{FEFF}'
  }

  /** Removes leading whitespace: the result is the suffix of `s` that starts at its first non-whitespace character. */
  function TrimStart(s: string): (r: string)
    ensures |r| <= |s| && r == s[|s| - |r|..]
    ensures r == [] || !IsWs(r[0])
  {
    if |s| > 0 && IsWs(s[0]) then TrimStart(s[1..]) else s
  }

  /** Only whitespace is removed at the start. */
  lemma {:induction false} TrimStartDropsWs(s: string)
    ensures forall i :: 0 <= i < |s| - |TrimStart(s)| ==> IsWs(s[i])
  {
    if |s| > 0 && IsWs(s[0]) {
      TrimStartDropsWs(s[1..]);
    }
  }

  /** Removes trailing whitespace: the result is the prefix of `s` that ends at its last non-whitespace character. */
  function TrimEnd(s: string): (r: string)
    ensures |r| <= |s| && r == s[..|r|]
    ensures r == [] || !IsWs(r[|r| - 1])
  {
    if |s| > 0 && IsWs(s[|s| - 1]) then TrimEnd(s[..|s| - 1]) else s
  }

  /** Only whitespace is removed at the end. */
  lemma {:induction false} TrimEndDropsWs(s: string)
    ensures forall i :: |TrimEnd(s)| <= i < |s| ==> IsWs(s[i])
  {
    if |s| > 0 && IsWs(s[|s| - 1]) {
      TrimEndDropsWs(s[..|s| - 1]);
    }
  }

  /** `s.trim()`: neither end of the result is whitespace. */
  function Trim(s: string): (r: string)
    ensures r == [] || (!IsWs(r[0]) && !IsWs(r[|r| - 1]))
  {
    TrimEnd(TrimStart(s))
  }

  /** A string trims to nothing exactly when it is all whitespace. */
  lemma TrimEmptyIffAllWs(s: string)
    ensures Trim(s) == [] <==> forall i :: 0 <= i < |s| ==> IsWs(s[i])
  {
    var t := TrimStart(s);
    TrimStartDropsWs(s);
    TrimEndDropsWs(t);
    assert forall i :: |s| - |t| <= i < |s| ==> s[i] == t[i - (|s| - |t|)];
  }

  /** Trimming is idempotent. */
  lemma TrimIdempotent(s: string)
    ensures Trim(Trim(s)) == Trim(s)
  {
    var t := Trim(s);
    if t != [] {
      assert TrimStart(t) == t;
      assert TrimEnd(t) == t;
    }
  }

  /** `s.split(sep)` for a one-character separator: the pieces between separators, always at least one. */
  function Split(s: string, sep: char): (r: seq<string>)
    ensures |r| >= 1
  {
    if |s| == 0 then [""] else PushChar(Split(s[..|s| - 1], sep), s[|s| - 1], sep)
  }

  /** The pieces after reading one more character: a separator opens a new piece, anything else extends the last. */
  function PushChar(pieces: seq<string>, c: char, sep: char): (r: seq<string>)
    requires |pieces| >= 1
    ensures |r| >= 1
  {
    if c == sep then pieces + [""]
    else pieces[..|pieces| - 1] + [pieces[|pieces| - 1] + [c]]
  }

  /** No piece of a split holds the separator. */
  lemma {:induction false} SplitPiecesLackSeparator(s: string, sep: char)
    ensures forall i :: 0 <= i < |Split(s, sep)| ==> sep !in Split(s, sep)[i]
  {
    if |s| > 0 {
      SplitPiecesLackSeparator(s[..|s| - 1], sep);
    }
  }

  /** `ps.join(sep)`: the pieces with one separator between neighbours; `[].join(sep)` is the empty string. */
  function Join(ps: seq<string>, sep: char): string
  {
    if |ps| == 0 then ""
    else if |ps| == 1 then ps[0]
    else Join(ps[..|ps| - 1], sep) + [sep] + ps[|ps| - 1]
  }

  function Last<T>(s: seq<T>): T
    requires |s| > 0
  {
    s[|s| - 1]
  }

  /** Joining the pieces of a split restores the string. */
  lemma {:induction false} JoinSplit(s: string, sep: char)
    ensures Join(Split(s, sep), sep) == s
  {
    if |s| > 0 {
      var s', c := s[..|s| - 1], s[|s| - 1];
      assert s' + [c] == s;
      JoinSplit(s', sep);
      SplitSnoc(s', c, sep);
      JoinPushChar(Split(s', sep), c, sep);
    }
  }

  /** Reading one more character appends it to the joined text. */
  lemma JoinPushChar(pieces: seq<string>, c: char, sep: char)
    requires |pieces| >= 1
    ensures Join(PushChar(pieces, c, sep), sep) == Join(pieces, sep) + [c]
  {
    var n := |pieces|;
    if c == sep {
      JoinSnoc(pieces, "", sep);
    } else if n == 1 {
      assert PushChar(pieces, c, sep) == [pieces[0] + [c]];
    } else {
      var front := pieces[..n - 1];
      assert front + [pieces[n - 1]] == pieces;
      assert PushChar(pieces, c, sep) == front + [pieces[n - 1] + [c]];
      JoinSnoc(front, pieces[n - 1], sep);
      JoinSnoc(front, pieces[n - 1] + [c], sep);
    }
  }

  /** Joining one more piece appends a separator and the piece. */
  lemma JoinSnoc(ps: seq<string>, p: string, sep: char)
    requires |ps| > 0
    ensures Join(ps + [p], sep) == Join(ps, sep) + [sep] + p
  {
    assert (ps + [p])[..|ps|] == ps;
  }

  /** Splitting a join restores the pieces, provided there is at least one and none contains the separator. */
  lemma {:induction false} SplitJoin(ps: seq<string>, sep: char)
    requires |ps| >= 1
    requires forall i :: 0 <= i < |ps| ==> sep !in ps[i]
    ensures Split(Join(ps, sep), sep) == ps
  {
    if |ps| == 1 {
      SplitNoSeparator(ps[0], sep);
    } else {
      var init, last := ps[..|ps| - 1], ps[|ps| - 1];
      assert init + [last] == ps;
      forall i | 0 <= i < |init|
        ensures sep !in init[i]
      {
        assert init[i] == ps[i];
      }
      SplitJoin(init, sep);
      SplitNoSeparator(last, sep);
      JoinSnoc(init, last, sep);
      SplitConcat(Join(init, sep), last, sep);
    }
  }

  /** A string without the separator splits into itself. */
  lemma {:induction false} SplitNoSeparator(s: string, sep: char)
    requires sep !in s
    ensures Split(s, sep) == [s]
  {
    if |s| > 0 {
      SplitNoSeparator(s[..|s| - 1], sep);
      assert s[..|s| - 1] + [s[|s| - 1]] == s;
    }
  }

  /** Appending one character either opens a new piece or extends the last one. */
  lemma SplitSnoc(s: string, c: char, sep: char)
    ensures Split(s + [c], sep) == PushChar(Split(s, sep), c, sep)
  {
    assert (s + [c])[..|s|] == s;
  }

  /** Splitting distributes over a separator: `(a + sep + b).split(sep)` is `a.split(sep)` followed by `b.split(sep)`. */
  lemma {:induction false} SplitConcat(a: string, b: string, sep: char)
    ensures Split(a + [sep] + b, sep) == Split(a, sep) + Split(b, sep)
  {
    if |b| == 0 {
      SplitSnoc(a, sep, sep);
      assert a + [sep] + b == a + [sep];
    } else {
      var b' := b[..|b| - 1];
      var c := b[|b| - 1];
      assert b' + [c] == b;
      var s' := a + [sep] + b';
      assert s' + [c] == a + [sep] + b;
      SplitConcat(a, b', sep);
      SplitSnoc(s', c, sep);
      SplitSnoc(b', c, sep);
      PushCharConcat(Split(a, sep), Split(b', sep), c, sep);
    }
  }

  /** Reading a character after two runs of pieces only touches the second run. */
  lemma PushCharConcat(xs: seq<string>, ys: seq<string>, c: char, sep: char)
    requires |ys| >= 1
    ensures PushChar(xs + ys, c, sep) == xs + PushChar(ys, c, sep)
  {
    var zs := xs + ys;
    assert zs[..|zs| - 1] == xs + ys[..|ys| - 1];
  }

  /**
   * `p` is the longest suffix of `s` without the separator: it ends `s`,
   * holds no separator, and is either all of `s` or preceded by a separator.
   */
  predicate IsLastPiece(p: string, s: string, sep: char) {
    && |p| <= |s| && p == s[|s| - |p|..] && sep !in p
    && (|p| == |s| || s[|s| - |p| - 1] == sep)
  }

  /** The last piece of a split is the longest separator-free suffix of the string. */
  lemma {:induction false} SplitLastPiece(s: string, sep: char)
    ensures IsLastPiece(Last(Split(s, sep)), s, sep)
  {
    if |s| > 0 {
      var s', c := s[..|s| - 1], s[|s| - 1];
      assert s' + [c] == s;
      SplitLastPiece(s', sep);
      SplitSnoc(s', c, sep);
      PushCharLastPiece(Split(s', sep), s', c, sep);
    }
  }

  /** Reading one more character keeps the last piece the longest separator-free suffix. */
  lemma PushCharLastPiece(pieces: seq<string>, s: string, c: char, sep: char)
    requires |pieces| >= 1 && IsLastPiece(Last(pieces), s, sep)
    ensures IsLastPiece(Last(PushChar(pieces, c, sep)), s + [c], sep)
  {
    var t := s + [c];
    if c == sep {
      assert Last(PushChar(pieces, c, sep)) == "";
    } else {
      var p := Last(pieces);
      var q := p + [c];
      assert Last(PushChar(pieces, c, sep)) == q;
      assert t[|t| - |q|..] == s[|s| - |p|..] + [c];
      assert sep !in q by {
        assert forall x :: x in q ==> x in p || x == c;
      }
      assert |q| == |t| || t[|t| - |q| - 1] == s[|s| - |p| - 1];
    }
  }

  /** `hay.includes(needle)`: `needle` occurs in `hay` as a contiguous run; the empty needle occurs everywhere. */
  predicate Includes(hay: string, needle: string) {
    exists i | 0 <= i <= |hay| - |needle| :: OccursAt(hay, needle, i)
  }

  predicate OccursAt(hay: string, needle: string, i: int) {
    0 <= i <= |hay| - |needle| && hay[i..i + |needle|] == needle
  }

  lemma IncludesEmpty(hay: string)
    ensures Includes(hay, "")
  {
    assert OccursAt(hay, "", 0);
  }

  lemma IncludesSuffix(prefix: string, suffix: string)
    ensures Includes(prefix + suffix, suffix)
  {
    assert OccursAt(prefix + suffix, suffix, |prefix|);
  }

  /** `s.filter(p)`: the elements of `s` that satisfy `p`, in their original order. */
  function Keep<T>(s: seq<T>, p: T -> bool): (r: seq<T>)
    ensures |r| <= |s|
  {
    if |s| == 0 then []
    else Keep(s[..|s| - 1], p) + (if p(s[|s| - 1]) then [s[|s| - 1]] else [])
  }

  /** What the filter keeps passes the callback and comes from the input; everything that passes is kept. */
  lemma {:induction false} KeepMembers<T>(s: seq<T>, p: T -> bool)
    ensures forall i :: 0 <= i < |Keep(s, p)| ==> Keep(s, p)[i] in s && p(Keep(s, p)[i])
    ensures forall i :: 0 <= i < |s| && p(s[i]) ==> s[i] in Keep(s, p)
  {
    if |s| > 0 {
      var init := s[..|s| - 1];
      KeepMembers(init, p);
      assert s == init + [s[|s| - 1]];
    }
  }

  /** `filter` keeps every copy of an element that passes and no copy of one that fails. */
  lemma {:induction false} KeepCount<T>(s: seq<T>, p: T -> bool, x: T)
    ensures multiset(Keep(s, p))[x] == if p(x) then multiset(s)[x] else 0
  {
    if |s| > 0 {
      var init, last := s[..|s| - 1], s[|s| - 1];
      assert init + [last] == s;
      KeepCount(init, p, x);
      assert multiset(s) == multiset(init) + multiset{last};
    }
  }
  /** `KeepCount` for every element at once. */
  lemma KeepCounts<T>(s: seq<T>, p: T -> bool)
    ensures forall x :: multiset(Keep(s, p))[x] == if p(x) then multiset(s)[x] else 0
  {
    forall x ensures multiset(Keep(s, p))[x] == if p(x) then multiset(s)[x] else 0 {
      KeepCount(s, p, x);
    }
  }


  /** Filtering distributes over concatenation, so it never reorders. */
  lemma {:induction false} KeepConcat<T>(a: seq<T>, b: seq<T>, p: T -> bool)
    ensures Keep(a + b, p) == Keep(a, p) + Keep(b, p)
  {
    if |b| == 0 {
      assert a + b == a;
    } else {
      var b' := b[..|b| - 1];
      assert (a + b)[..|a + b| - 1] == a + b';
      KeepConcat(a, b', p);
    }
  }

  /** Filtering keeps everything exactly when every element passes. */
  lemma {:induction false} KeepAll<T>(s: seq<T>, p: T -> bool)
    ensures Keep(s, p) == s <==> forall i :: 0 <= i < |s| ==> p(s[i])
  {
    if |s| > 0 {
      KeepAll(s[..|s| - 1], p);
      assert s[..|s| - 1] + [s[|s| - 1]] == s;
      if Keep(s, p) == s {
        assert |Keep(s[..|s| - 1], p)| <= |s| - 1;
        assert p(s[|s| - 1]);
        assert Keep(s[..|s| - 1], p) == s[..|s| - 1];
      }
    }
  }

  /** `r` is `s` with some elements removed and the rest in their original order. */
  predicate IsSubsequence<T(==)>(r: seq<T>, s: seq<T>)
  {
    || |r| == 0
    || (&& |s| > 0
        && (|| (r[|r| - 1] == s[|s| - 1] && IsSubsequence(r[..|r| - 1], s[..|s| - 1]))
            || IsSubsequence(r, s[..|s| - 1])))
  }

  lemma {:induction false} KeepIsSubsequence<T>(s: seq<T>, p: T -> bool)
    ensures IsSubsequence(Keep(s, p), s)
  {
    if |s| > 0 {
      var init := s[..|s| - 1];
      KeepIsSubsequence(init, p);
      var r := Keep(s, p);
      assert s[..|s| - 1] == init;
      if p(s[|s| - 1]) {
        assert r[..|r| - 1] == Keep(init, p);
        assert r[|r| - 1] == s[|s| - 1];
      } else {
        assert r == Keep(init, p);
      }
    }
  }

  /** The relational operator `a < b` on strings: lexicographic, with a proper prefix ordered first. */
  predicate LexLess(a: string, b: string)
  {
    if |a| == 0 then |b| > 0
    else if |b| == 0 then false
    else if a[0] != b[0] then a[0] < b[0]
    else LexLess(a[1..], b[1..])
  }

  lemma {:induction false} LexLessIrreflexive(a: string)
    ensures !LexLess(a, a)
  {
    if |a| > 0 {
      LexLessIrreflexive(a[1..]);
    }
  }

  /** Exactly one of `a < b`, `a == b`, `b < a` holds. */
  lemma {:induction false} LexLessTrichotomy(a: string, b: string)
    ensures a == b || LexLess(a, b) || LexLess(b, a)
    ensures !(LexLess(a, b) && LexLess(b, a))
  {
    if |a| > 0 && |b| > 0 && a[0] == b[0] {
      LexLessTrichotomy(a[1..], b[1..]);
      if a[1..] == b[1..] {
        assert a == [a[0]] + a[1..] && b == [b[0]] + b[1..];
      }
    }
  }

  lemma {:induction false} LexLessTransitive(a: string, b: string, c: string)
    requires LexLess(a, b) && LexLess(b, c)
    ensures LexLess(a, c)
  {
    if |a| > 0 && a[0] == b[0] && b[0] == c[0] {
      LexLessTransitive(a[1..], b[1..], c[1..]);
    }
  }
}

=== FILE: scenarios.dfy ===
/** Worked examples of the completion source on small documents. */
module Scenarios {
  import opened Wrappers
  import opened JsStrings
  import opened CompletionSource

  /** A document of one line with no surrounding whitespace has that line's last space-separated piece as its word. */
  lemma OneLineWord(line: string, w: string, k: nat)
    requires |line| > 0 && !IsWs(line[0]) && !IsWs(line[|line| - 1])
    requires k < |line| && line[k] == ' ' && w == line[k + 1..] && ' ' !in w
    ensures CurrentWord([line]) == Some(w)
  {
    assert TrimStart(line) == line;
    assert TrimEnd(line) == line;
    CurrentWordIsSuffixOfLine([line], 0);
  }

  /** The suffix after the last `.` of `foo.ba` is `ba`. */
  lemma FooBaSuffix()
    ensures AfterLastDot("foo.ba") == "ba"
  {
    AfterLastDotShape("foo.ba");
  }

  /** A string without the first character of the needle does not contain the needle. */
  lemma NotIncludes(hay: string, needle: string)
    requires |needle| > 0 && needle[0] !in hay
    ensures !Includes(hay, needle)
  {
    forall i | 0 <= i <= |hay| - |needle| ensures !OccursAt(hay, needle, i) {
      assert hay[i..i + |needle|][0] == hay[i];
    }
  }

  /** Filtering two kept elements and one dropped one. */
  lemma KeepTwoOfThree<T>(x: T, y: T, z: T, p: T -> bool)
    requires p(x) && p(y) && !p(z)
    ensures Keep([x, y, z], p) == [x, y]
  {
    assert [x, y, z][..2] == [x, y];
    assert [x, y][..1] == [x];
    assert [x][..0] == [];
    assert Keep([x], p) == [x];
    assert Keep([x, y], p) == [x, y];
  }

  /** Filtering one kept element and one dropped one. */
  lemma KeepOneOfTwo<T>(x: T, y: T, p: T -> bool)
    requires p(x) && !p(y)
    ensures Keep([x, y], p) == [x]
  {
    assert [x, y][..1] == [x];
    assert [x][..0] == [];
    assert Keep([x], p) == [x];
  }

  /** `bar` and `baz` contain `ba`; `map` does not. */
  lemma BaFilter()
    ensures var bar, baz, mapHint := Candidate("bar", JsMethodType, None), Candidate("baz", JsMethodType, None),
                                     Candidate("map", JsMethodType, None);
      Keep([bar, baz, mapHint], HintIncludes("ba")) == [bar, baz]
  {
    var bar, baz, mapHint := Candidate("bar", JsMethodType, None), Candidate("baz", JsMethodType, None), Candidate("map", JsMethodType, None);
    assert HintIncludes("ba")(bar) by {
      assert OccursAt("bar", "ba", 0);
    }
    assert HintIncludes("ba")(baz) by {
      assert OccursAt("baz", "ba", 0);
    }
    assert !HintIncludes("ba")(mapHint) by {
      NotIncludes("map", "ba");
    }
    KeepTwoOfThree(bar, baz, mapHint, HintIncludes("ba"));
  }

  /** With the word `foo.ba`, the array category's `bar` and `baz` pass and `map` does not. */
  lemma FooBaMethods()
    ensures Candidates(Some("foo.ba"), JavaScript, Hints([JsHintCategory("array", ["bar", "baz", "map"])], []))
         == Success([Candidate("bar", JsMethodType, None), Candidate("baz", JsMethodType, None)])
  {
    FooBaSuffix();
    BaFilter();
    var cats := [JsHintCategory("array", ["bar", "baz", "map"])];
    assert cats[..0] == [];
    var methods := [Candidate("bar", JsMethodType, None), Candidate("baz", JsMethodType, None)];
    assert FlattenMethods(cats)
      == [Candidate("bar", JsMethodType, None), Candidate("baz", JsMethodType, None), Candidate("map", JsMethodType, None)];
    assert JsLangHints(Some("foo.ba"), JavaScript, cats) == Success(methods);
    assert FilterApp(Some("foo.ba"), []) == Success([]);
    assert methods + [] == methods;
  }

  /** `foo.ba` on a JavaScript line keeps the methods `bar` and `baz` of the array category and drops `map`. */
  lemma MethodSuffixScenario()
    ensures var line := "const x = foo.ba";
      var hints := Hints([JsHintCategory("array", ["bar", "baz", "map"])], []);
      && CurrentWord([line]) == Some("foo.ba")
      && Candidates(CurrentWord([line]), JavaScript, hints)
         == Success([Candidate("bar", JsMethodType, None), Candidate("baz", JsMethodType, None)])
  {
    OneLineWord("const x = foo.ba", "foo.ba", 9);
    FooBaMethods();
  }

  /** With the word `use`, `users` passes and `orders` does not. */
  lemma UseApps()
    ensures var users, orders := Candidate("users", "var", None), Candidate("orders", "var", None);
      Candidates(Some("use"), "sql", Hints([], [users, orders])) == Success([users])
  {
    var users, orders := Candidate("users", "var", None), Candidate("orders", "var", None);
    assert AppHintMatches("use")(users) by {
      assert OccursAt("users", "use", 0);
    }
    assert !AppHintMatches("use")(orders) by {
      NotIncludes("orders", "use");
    }
    KeepOneOfTwo(users, orders, AppHintMatches("use"));
    assert JsLangHints(Some("use"), "sql", []) == Success([]);
    assert FilterApp(Some("use"), [users, orders]) == Success([users]);
    assert [] + [users] == [users];
  }

  /** `use` in an SQL line keeps the application hint `users` and drops `orders`. */
  lemma AppWordScenario()
    ensures var line := "select * from use";
      var users, orders := Candidate("users", "var", None), Candidate("orders", "var", None);
      && CurrentWord([line]) == Some("use")
      && Candidates(CurrentWord([line]), "sql", Hints([], [users, orders])) == Success([users])
  {
    OneLineWord("select * from use", "use", 13);
    UseApps();
  }

  /** A blank line and two application hints: the written source throws where a list of every hint was evidently meant. */
  lemma BlankLineScenario(generate: seq<Candidate> -> seq<Completion>)
    ensures var ctx := CompletionContext(["  "], 0);
      var hints := Hints([], [Candidate("table1", "var", None), Candidate("table2", "var", None)]);
      && AutoComplete(ctx, "sql", hints, generate) == Failure(WordUndefined)
      && AutoCompleteIntended(ctx, "sql", hints, generate)
         == Success(CompletionResult(0, StripApply(generate(hints.appHints))))
  {
    var ctx := CompletionContext(["  "], 0);
    var hints := Hints([], [Candidate("table1", "var", None), Candidate("table2", "var", None)]);
    assert Trim("  ") == "";
    BlankDocumentFaults(ctx, "sql", hints, generate);
    IntendedBlankDocumentKeepsAll(ctx, "sql", hints, generate);
    assert [] + hints.appHints == hints.appHints;
  }
}

=== FILE: wrappers.dfy ===
/** Option and Result, used for JavaScript's nullish values and for thrown errors. */
module Wrappers {

  /** `None` stands for a JavaScript `undefined` (or `null`) value. */
  datatype Option<+T> = None | Some(value: T) {
    function GetOr(default: T): T {
      match this
      case Some(v) => v
      case None => default
    }
  }

  /** The outcome of a computation that may throw. */
  datatype Result<+T, +E> = Success(value: T) | Failure(error: E)
}
